=== FILE: README.md ===
# WebCrafter player simulation in Dafny

WebCrafter's `Game` component is a small first-person world in three.js. The
player is an invisible sphere of radius 0.6. It walks on a ground plane inside a
disc of radius 40, among 30 trees and 6 houses, and jumps under gravity.

This project models the per-frame simulation of that player, over the reals:

- the `animate` step, covering:
  - time step clamp;
  - steering from the held controls;
  - velocity easing;
  - gravity;
  - ground clamp and jump re-arm;
  - boundary clamp;
  - obstacle rejection;
  - HUD line;
  - eye position;
- the radius-based obstacle test `collidesWithObjects`;
- the jump state machine (`attemptJump`, `handleJumpPress`);
- the drag-to-look camera with its pitch clamp;
- the control flags set by the keyboard and the on-screen buttons.

Modules:

- `RealMath` holds `Min`, `Max`, `Abs` and three.js `lerp`. It also holds the
  square-root contract `IsSqrt`. Every operation that needs a length takes the
  square root as a parameter `sqrt` constrained by that contract.
- `Geometry` has vectors and horizontal headings. It also has two "right"
  vectors. `RightOf` is the camera's own right, `forward × up`.
  `SourceRight` is the vector the source calls `right`, `up × forward`. It
  points to the camera's left (see Findings).
- `Controls` has the flag record and the key and button handlers.
- `Obstacles` has the collision test. It comes in two versions: at each
  obstacle's placement, and as the source computes it (see Findings).
- `Camera` has yaw and pitch under pointer drags.
- `Physics` has the steering (`Steer`), one `animate` frame (`Tick`) and the
  jump (`AttemptJump`). `Tick` takes the steering as an input and is built
  from named stages.
- `Game` has the whole session: state, the browser events, `Step` and `Run`.
  It also has the invariant `Valid`: on or above the ground, inside the disc,
  pitch in range. Every event preserves it.

Each of the two Findings is modelled both ways: a member that does what the
code does, and a corrected member.

- The session model uses the corrected members throughout: `Physics.Tick`,
  `Game.Step` and `Game.Run` use the corrected obstacle test
  `Obstacles.Collides`. Their steering comes from `Physics.Steer`, which uses
  the corrected `Geometry.RightOf`. So the preservation of `Valid` is proved
  for the intended program.
- The obstacle test as written appears only in `Physics.TickAsWritten`, one
  frame at a time, and in runs of such frames (`Physics.FramesAsWritten`).
  These are used only to exhibit the first finding.

## Model

| member | source | states |
|---|---|---|
| Physics.StepSize | src/Game.jsx:206 | the step is at most 0.05 s and at most the elapsed time, and equals one of the two |
| Physics.Steer | src/Game.jsx:213-226 | the player steers exactly when forward differs from back or left differs from right; otherwise the target velocity is zero |
| Physics.MoveNormSq | src/Game.jsx:216-222 | for a unit forward, the summed move vector has squared length equal to the number of uncancelled axes, since forward and right are orthonormal |
| Geometry.RightOfOrthonormal | src/Game.jsx:216 | the right direction is perpendicular to forward and just as long, so `normalize()` leaves it unchanged |
| Geometry.RightOfTurnsWithCamera | src/Game.jsx:216 | at every yaw, the corrected right of the camera's look direction is the camera's own turned x axis |
| Geometry.SourceRightPointsLeft | src/Game.jsx:216 | at every yaw, the source's `up × forward` is the camera's turned −x axis, the exact opposite of the corrected right |
| Physics.RightKeyStrafesLeftAsWritten | src/Game.jsx:216-222 | as written, holding only the right control with the camera at rest moves the player along −x, to the camera's left |
| Physics.RightKeyStrafesRight | src/Game.jsx:216-222 | with the corrected right, the same input moves the player along +x |
| Physics.SteerSpeed | src/Game.jsx:224-226 | when steering, the target velocity has length 6, is parallel to the move vector and points the same way |
| Physics.Accelerate | src/Game.jsx:227-237 | each horizontal velocity component closes 12% of its gap to the target; gravity takes 9.8·dt from the vertical one; position and jump flag are untouched |
| Physics.IdleVelocityDecays | src/Game.jsx:230-232 | with no control held, or opposing ones cancelling, each horizontal velocity component is multiplied by 0.88, and its magnitude shrinks by that factor |
| Physics.SmoothingIgnoresStepSize | src/Game.jsx:227-232 | the eased horizontal velocity does not depend on the step size |
| RealMath.Lerp | src/Game.jsx:227-232 | three.js `lerp` moves a fraction t of the way from x to y: the remaining gap is (1 − t) times the old one |
| Physics.GroundClamp | src/Game.jsx:241-246 | below 1.2 the player is put at 1.2, with vertical velocity 0, and the jump is re-armed; otherwise nothing changes |
| Physics.BoundaryClamp | src/Game.jsx:248-254 | the result is inside the disc of radius 39; inside the disc nothing changes; outside it, the horizontal velocity is multiplied by 0.2; height, vertical velocity and jump flag are kept |
| Physics.BoundaryClampOnRim | src/Game.jsx:250-252 | a point outside the disc is moved onto its rim, along its own ray from the centre |
| Physics.ProposeHorizontal | src/Game.jsx:239-254 | horizontally, the proposal is the position moved by the eased velocity over the step. Inside the disc of radius 39 it is kept, with the eased velocity. Outside, it is put on the rim along its own ray from the centre, and the eased horizontal velocity is multiplied by 0.2 |
| Physics.Propose | src/Game.jsx:236-254 | the proposed state is at or above 1.2 and inside the disc; it lands and re-arms exactly when the free fall would end below 1.2, and otherwise follows the free fall |
| Physics.Resolve | src/Game.jsx:256-263 | on a collision the old horizontal position is restored and the horizontal velocity zeroed, keeping the vertical result; otherwise the proposal stands |
| Physics.NextHud | src/Game.jsx:229-264 | the HUD reads "Colidiu com obstáculo" on a collision, else "Andando..." when steering, else "Parado" when the jump was armed, else it is left as it was |
| Physics.NextHudSettled | src/Game.jsx:229-264 | repeating a frame's HUD update with the same inputs changes nothing, and the previous text shows through only when the frame neither collides, steers nor starts armed |
| Physics.Tick | src/Game.jsx:205-268 | after a frame with the given steering: the player is at or above 1.2; a player inside the disc stays inside; the jump is armed exactly when it was armed before or the fall reached the ground; a collision restores the horizontal position, keeps the vertical motion and shows the collision message; otherwise the proposal is taken and the HUD follows `NextHud` |
| Physics.TickLands | src/Game.jsx:241-263 | a frame whose free fall ends below the ground leaves the player at 1.2, stopped and armed, whether or not it collides |
| Physics.FallingPlayerLands | src/Game.jsx:237-246 | a player at 1.1 falling at 3 per second lands at 1.2, stops and may jump again after a 0.02 s frame, whatever the steering |
| Physics.EyePosition | src/Game.jsx:270-272 | the camera sits exactly 0.9 above the player, so at or above 2.1 |
| Physics.AttemptJump | src/Game.jsx:173-179 | an armed player gets vertical velocity 7, is disarmed and the HUD reads "Pulando!"; an unarmed player is left unchanged |
| Physics.JumpLeavesGround | src/Game.jsx:175-246 | in the frame after a jump (positive length, at most 0.05 s) the player rises, so the ground does not re-arm the jump |
| Physics.JumpKeepsHorizontal | src/Game.jsx:173-179 | a jump request changes neither the position nor the horizontal velocity, so a player at rest at the origin stays there |
| Physics.NoDoubleJump | src/Game.jsx:173-246 | after a jump and a frame of positive length the jump is still disarmed, and a second jump request changes nothing |
| Obstacles.HitsAny | src/Game.jsx:184-191 | the scan reports a hit exactly when some obstacle is closer than the sum of the radii, strictly |
| Obstacles.Collides | src/Game.jsx:182-201 | a collision happens exactly when some tree (fallback radius 1.2) or some house (fallback radius 1.5) overlaps the player, strictly |
| Obstacles.TreeContactScenario | src/Game.jsx:186-190 | a tree at (2, 0): no collision at the origin or at exact contact; a collision at x = 1 |
| Obstacles.CollidesAsWritten | src/Game.jsx:185 | the test as written measures every obstacle from its group's origin, which is the world origin |
| Obstacles.FarTreeBlocksOnlyAsWritten | src/Game.jsx:75-85 | a lone tree 20 units away blocks a player at the origin, as written, but not a player pressed against it; the corrected test does the opposite |
| Physics.TickAsWritten | src/Game.jsx:256-265 | the frame with the as-written test: on such a collision the horizontal position is restored and the HUD reads "Colidiu com obstáculo"; otherwise the player takes the proposed state and the HUD follows the walking/idle rule, exactly as in `Tick` |
| Physics.AsWrittenPlayerStaysAtOrigin | src/Game.jsx:66 | as written, with at least one tree of radius 1.2, one frame leaves a player at rest at the origin there, at rest horizontally, with the collision message. This holds for any steering of length 6 or zero and any non-negative elapsed time |
| Physics.PinnedTick | src/Game.jsx:256-263 | one as-written frame with such an input keeps a player at rest at the origin there |
| Physics.PinnedFrame | src/Game.jsx:205-268 | the first as-written frame of a run keeps a player at rest at the origin there, and the run continues from that frame with the remaining inputs |
| Physics.AsWrittenPlayerPinned | src/Game.jsx:205-268 | as written, a player at rest at the origin, such as the spawned player, stays at rest at the origin through any run of frames with steerings of length 6 or zero and non-negative elapsed times |
| Physics.SteerTargetSpeed | src/Game.jsx:224-232 | the steering target of any controls has length 6 or is zero |
| Physics.SteerAsWrittenTargetSpeed | src/Game.jsx:216-232 | the same holds for the source's own `move`, built with its left-pointing `right` |
| Physics.ProposalFromRest | src/Game.jsx:224-239 | one frame from rest moves the player less than 1.8 horizontally |
| Camera.ClampPitch | src/Game.jsx:148 | the pitch is brought into [−π/2 + 0.05, π/2 − 0.05]; a pitch already in range is kept, and one outside is set to the nearer limit |
| Camera.ClampPitchIdempotent | src/Game.jsx:148 | clamping twice is clamping once |
| Camera.PointerDown | src/Game.jsx:134-138 | a press starts a drag from the pressed point, leaving yaw and pitch alone |
| Camera.PointerMove | src/Game.jsx:139-149 | without a drag nothing changes; during a drag yaw drops by 0.002 per pixel moved right, the pitch drops by 0.002 per pixel moved down and is clamped (a pitch pushed past a limit becomes that limit), and the drag continues from the new pointer position |
| Camera.YawAccumulates | src/Game.jsx:143-146 | two drag moves turn the yaw as far as one move straight to the final point |
| Camera.PointerUp | src/Game.jsx:150 | releasing ends the drag and keeps the view |
| Controls.Set | src/Game.jsx:158-161 | setting one movement flag leaves the other three and the jump flag alone |
| Controls.KeyDown | src/Game.jsx:157-161 | W/ArrowUp, S/ArrowDown, A/ArrowLeft and D/ArrowRight set exactly their own flag; any other key leaves the controls alone |
| Controls.KeyUp | src/Game.jsx:164-169 | the same keys clear exactly their own flag; any other key leaves the controls alone |
| Controls.KeyUpUndoesKeyDown | src/Game.jsx:157-169 | releasing a movement key after pressing it clears that flag and leaves the others as they were |
| Controls.Press | src/Game.jsx:315-320 | a button press sets its own flag only |
| Controls.Release | src/Game.jsx:321-326 | a button release clears its own flag only |
| Controls.ReleaseAll | src/Game.jsx:305-312 | the global release clears all four movement flags and leaves the jump flag |
| Game.Start | src/Game.jsx:60-68 | the session starts with the player at (0, 1.2, 0), at rest and armed, the HUD reading "Bem-vindo!", the camera level at yaw 0 and not dragging, nothing held (lines 17-18 and 130-133 give the HUD, the flags and the camera) and the clock at the mount time, so `Valid` holds and the player is at rest at the origin |
| Game.Step | src/Game.jsx:134-382 | every event preserves `Valid`. A frame runs one `Tick` over the seconds since the last frame, with the steering of the held controls, records its timestamp and touches neither camera nor controls. A drag start, a drag move and a pointerup apply the camera's `PointerDown`, `PointerMove` and `PointerUp`. Space and the jump button apply `AttemptJump`. Other events leave the position alone. Space or the jump button jumps an armed player and leaves an unarmed one alone. Keys, control buttons and the jump button never touch the camera. Key releases, button events and drags never touch the player frame. Drags and the jump button never touch the controls. Pointerup and pointercancel release all movement, and pointerup also ends the drag. A pointer leaving a control button releases that button only |
| Game.Run | src/Game.jsx:204-277 | any sequence of events preserves `Valid`; after it the player is at or above 1.2 unless no frame has moved them |
| RealMath.RootExceedsIff | src/Game.jsx:224 | a non-negative root exceeds a bound exactly when its square exceeds the bound's square |

## Left out

- Rendering, scene set-up, lights, the sky, window resize and listener clean-up. None of these affect the simulated state.
- Random spawning of trees and houses (`Math.random`, `Math.cos`, `Math.sin`). The obstacles are an input `World`.
- The look direction. The source derives it from yaw and pitch through an Euler-angle quaternion and `getWorldDirection`, which is trigonometry. An animation frame therefore carries the horizontal unit look direction as input, and the model does not tie it to the yaw.
- The square root. It is a parameter constrained by `RealMath.IsSqrt`, and `Vector2.setLength` is modelled as scaling by 39 over that root.
- IEEE double rounding. All arithmetic is exact over the reals, and π is the real 3.141592653589793.
- Timing. `requestAnimationFrame` and `performance.now()` become the timestamps of `AnimationFrame` events and of `Game.Start`. The elapsed time may be negative, as it may be in a browser for the first frame, so no step is assumed positive.
- `handleJumpPress` before the component has mounted, when `playerRef` is still null. After mount it acts on the same player as `attemptJump`.
- The 120 ms highlight of the jump button and the `active` CSS classes of the control buttons.
- An obstacle's `collisionRadius` that is `undefined`, `NaN` or any other falsy value. Only 0, the one falsy real, selects the fallback radius.
- Touch events. A touch behaves as a pointer at its first contact point.
- The `jump` flag of the controls. It is kept in the record but nothing in the component reads or writes it.
- `App.jsx`, which only mounts the component.
- Physics.AsWrittenPlayerPinned: only runs with non-negative elapsed times are covered. A negative elapsed time, possible for the first frame, is not bounded from below by the step clamp, and could carry the player out of the tree's reach.

## Findings

| source | as written | input that shows it | evidently intended | confidence | as-written member | corrected member |
|---|---|---|---|---|---|---|
| src/Game.jsx:185 | each obstacle's position is read with `getWorldPosition` on the tree or house group. `createTreeAt` and `createHouseAt` only place the group's child meshes, so every group's world position is the origin | 30 trees, placed anywhere, and a player spawned at the origin (`src/Game.jsx:66`). Every frame with a non-negative elapsed time proposes a point within 1.8 of the origin, so it collides. The player can never leave the origin, through any run of frames (`Physics.AsWrittenPlayerPinned`), and jump requests between frames do not help, since a jump changes only the vertical motion (`Physics.JumpKeepsHorizontal`) | each obstacle is measured from the point where it was placed (its meshes' x and z) | high (not executed) | Physics.AsWrittenPlayerStaysAtOrigin | Obstacles.Collides |
| src/Game.jsx:216 | `right` is `crossVectors((0,1,0), dir)`, which is `up × forward` = (f.z, −f.x). A three.js camera at rest looks along (0, 0, −1), so this is (−1, 0, 0), the camera's left. The right control (D, ArrowRight, "Dir") adds it and the left control (A, ArrowLeft, "Esq") subtracts it | camera at rest, only D held: `move` is (−1, 0, 0), and the player strafes left | `right` is `forward × up` = (−f.z, f.x), the camera's right at every yaw | high (not executed) | Physics.RightKeyStrafesLeftAsWritten | Geometry.RightOf |

=== FILE: camera.dfy ===
/** The drag-to-look camera orientation (`onPointerDownCamera`,
    `onPointerMoveCamera`, `onPointerUpCamera`, src/Game.jsx). */
module Camera {
  import opened RealMath

  /** `Math.PI`, the double nearest to pi, written as its shortest decimal. */
  const PI: real := 3.141592653589793
  const SENSITIVITY: real := 0.002
  const PITCH_MIN: real := -PI / 2.0 + 0.05
  const PITCH_MAX: real := PI / 2.0 - 0.05

  /** Yaw and pitch in radians, whether a pointer is held down, and the pointer
      coordinates of the last drag event. */
  datatype CameraState = CameraState(yaw: real, pitch: real, dragging: bool, lastX: real, lastY: real)

  const Initial := CameraState(0.0, 0.0, false, 0.0, 0.0)

  predicate PitchInRange(pitch: real) {
    PITCH_MIN <= pitch <= PITCH_MAX
  }

  /** `Math.max(-PI/2 + 0.05, Math.min(PI/2 - 0.05, pitch))`. */
  function ClampPitch(pitch: real): (r: real)
    ensures PitchInRange(r)
    ensures PitchInRange(pitch) ==> r == pitch
    ensures pitch < PITCH_MIN ==> r == PITCH_MIN
    ensures pitch > PITCH_MAX ==> r == PITCH_MAX
  {
    Max(PITCH_MIN, Min(PITCH_MAX, pitch))
  }

  /** Clamping an already clamped pitch changes nothing. */
  lemma ClampPitchIdempotent(pitch: real)
    ensures ClampPitch(ClampPitch(pitch)) == ClampPitch(pitch)
  {
  }

  /** `onPointerDownCamera`: start a drag at the pointer position. */
  function PointerDown(cam: CameraState, x: real, y: real): (r: CameraState)
    ensures r.dragging && r.lastX == x && r.lastY == y
    ensures r.yaw == cam.yaw && r.pitch == cam.pitch
  {
    cam.(dragging := true, lastX := x, lastY := y)
  }

  /** `onPointerMoveCamera`: ignored unless dragging; otherwise yaw and pitch turn
      against the pointer deltas and the pitch is clamped. */
  function PointerMove(cam: CameraState, x: real, y: real): (r: CameraState)
    ensures !cam.dragging ==> r == cam
    ensures cam.dragging ==>
              && r.yaw == cam.yaw - (x - cam.lastX) * SENSITIVITY
              && PitchInRange(r.pitch)
              && (PitchInRange(cam.pitch - (y - cam.lastY) * SENSITIVITY) ==>
                    r.pitch == cam.pitch - (y - cam.lastY) * SENSITIVITY)
              && r.pitch == ClampPitch(cam.pitch - (y - cam.lastY) * SENSITIVITY)
              && r.dragging && r.lastX == x && r.lastY == y
  {
    if !cam.dragging then cam
    else
      var dx := x - cam.lastX;
      var dy := y - cam.lastY;
      var yaw := cam.yaw - dx * SENSITIVITY;
      var pitch := cam.pitch - dy * SENSITIVITY;
      CameraState(yaw, ClampPitch(pitch), true, x, y)
  }

  /** `onPointerUpCamera`. */
  function PointerUp(cam: CameraState): (r: CameraState)
    ensures !r.dragging
    ensures r.yaw == cam.yaw && r.pitch == cam.pitch
  {
    cam.(dragging := false)
  }

  /** Two drag moves turn the yaw by the total horizontal pointer travel, the same
      as one move straight to the final position. */
  lemma YawAccumulates(cam: CameraState, x1: real, y1: real, x2: real, y2: real)
    requires cam.dragging
    ensures PointerMove(PointerMove(cam, x1, y1), x2, y2).yaw == PointerMove(cam, x2, y2).yaw
  {
  }
}

=== FILE: controls.dfy ===
/** The movement control flags (`controlsRef`) and the keyboard and on-screen
    button handlers that write them (src/Game.jsx). */
module Controls {
  import opened Wrappers

  /** The four movement flags a key or a button can drive. */
  datatype Flag = Forward | Back | Left | Right

  /** `controlsRef.current`. The `jump` flag is initialised and never written. */
  datatype Controls = Controls(forward: bool, back: bool, left: bool, right: bool, jump: bool)

  const Released := Controls(false, false, false, false, false)

  function Get(c: Controls, f: Flag): bool {
    match f
    case Forward => c.forward
    case Back => c.back
    case Left => c.left
    case Right => c.right
  }

  /** `controlsRef.current[name] = v`: exactly one movement flag changes. */
  function Set(c: Controls, f: Flag, v: bool): (r: Controls)
    ensures Get(r, f) == v
    ensures forall g: Flag :: g != f ==> Get(r, g) == Get(c, g)
    ensures r.jump == c.jump
  {
    match f
    case Forward => c.(forward := v)
    case Back => c.(back := v)
    case Left => c.(left := v)
    case Right => c.(right := v)
  }

  /** The key codes the keyboard handlers map to movement flags. */
  function KeyFlag(code: string): Option<Flag> {
    if code == "KeyW" || code == "ArrowUp" then Some(Forward)
    else if code == "KeyS" || code == "ArrowDown" then Some(Back)
    else if code == "KeyA" || code == "ArrowLeft" then Some(Left)
    else if code == "KeyD" || code == "ArrowRight" then Some(Right)
    else None
  }

  /** The flag updates of `onKeyDown`: one independent test per flag. The `Space`
      branch acts on the player and is modelled by `Game.Step`. */
  function KeyDown(c: Controls, code: string): (r: Controls)
    ensures KeyFlag(code).Some? ==> r == Set(c, KeyFlag(code).value, true)
    ensures KeyFlag(code).None? ==> r == c
  {
    var c1 := if code == "KeyW" || code == "ArrowUp" then c.(forward := true) else c;
    var c2 := if code == "KeyS" || code == "ArrowDown" then c1.(back := true) else c1;
    var c3 := if code == "KeyA" || code == "ArrowLeft" then c2.(left := true) else c2;
    if code == "KeyD" || code == "ArrowRight" then c3.(right := true) else c3
  }

  /** `onKeyUp`. */
  function KeyUp(c: Controls, code: string): (r: Controls)
    ensures KeyFlag(code).Some? ==> r == Set(c, KeyFlag(code).value, false)
    ensures KeyFlag(code).None? ==> r == c
  {
    var c1 := if code == "KeyW" || code == "ArrowUp" then c.(forward := false) else c;
    var c2 := if code == "KeyS" || code == "ArrowDown" then c1.(back := false) else c1;
    var c3 := if code == "KeyA" || code == "ArrowLeft" then c2.(left := false) else c2;
    if code == "KeyD" || code == "ArrowRight" then c3.(right := false) else c3
  }

  /** `handleControlPointerDown(name)`: the named flag is held. */
  function Press(c: Controls, f: Flag): (r: Controls)
    ensures Get(r, f)
    ensures forall g: Flag :: g != f ==> Get(r, g) == Get(c, g)
    ensures r.jump == c.jump
  {
    Set(c, f, true)
  }

  /** `handleControlPointerUp(name)` (pointer up or leave on a button). */
  function Release(c: Controls, f: Flag): (r: Controls)
    ensures !Get(r, f)
    ensures forall g: Flag :: g != f ==> Get(r, g) == Get(c, g)
    ensures r.jump == c.jump
  {
    Set(c, f, false)
  }

  /** `releaseAllControls`, run on every window `pointerup` and `pointercancel`. */
  function ReleaseAll(c: Controls): (r: Controls)
    ensures forall g: Flag :: !Get(r, g)
    ensures r.jump == c.jump
  {
    Controls(false, false, false, false, c.jump)
  }

  /** A key press followed by its release leaves the flag released and every
      other flag as it was. */
  lemma KeyUpUndoesKeyDown(c: Controls, code: string)
    ensures KeyFlag(code).Some? ==>
              var r := KeyUp(KeyDown(c, code), code);
              && !Get(r, KeyFlag(code).value)
              && (forall g: Flag :: g != KeyFlag(code).value ==> Get(r, g) == Get(c, g))
    ensures KeyFlag(code).None? ==> KeyUp(KeyDown(c, code), code) == c
  {
  }
}

=== FILE: game.dfy ===
/** The game session: the simulated player, the HUD line, the look camera and the
    held controls, driven by the browser events the component listens to. */
module Game {
  import opened Wrappers
  import opened RealMath
  import opened Geometry
  import opened Controls
  import opened Obstacles
  import Camera
  import opened Physics

  datatype State = State(frame: Frame, camera: Camera.CameraState, controls: Controls, lastMs: real)

  /** The events the component reacts to. Timestamps are milliseconds; the
      animation frame carries the camera's horizontal unit look direction. */
  datatype Event =
    | AnimationFrame(nowMs: real, forward: Heading)
    | KeyPressed(code: string)
    | KeyReleased(code: string)
    | DragStart(x: real, y: real)
    | DragMove(x: real, y: real)
    | PointerLifted(button: Option<Flag>)
    | PointerCancelled
    | ButtonPressed(flag: Flag)
    | ButtonLeft(flag: Flag)
    | JumpPressed

  predicate WellFormed(e: Event) {
    e.AnimationFrame? ==> IsUnit(e.forward)
  }

  /** The session as mounted at time `nowMs`: player on the ground at the origin,
      "Bem-vindo!" on the HUD, camera level, nothing held. */
  function Start(nowMs: real): (g: State)
    ensures Valid(g)
    ensures g.frame.player.canJump && !g.camera.dragging && g.controls == Released
    ensures g.frame.player.pos == Vec3(0.0, GROUND_Y, 0.0) && g.frame.player.vel == Vec3(0.0, 0.0, 0.0)
    ensures AtRestAtOrigin(g.frame)
    ensures g.frame.hud == Welcome && g.camera.yaw == 0.0 && g.camera.pitch == 0.0 && g.lastMs == nowMs
  {
    State(Frame(Spawn, Welcome), Camera.Initial, Released, nowMs)
  }

  /** What every frame keeps: the player at or above the ground inside the world
      disc, and the camera pitch within its limits. */
  predicate Valid(g: State) {
    && g.frame.player.pos.y >= GROUND_Y
    && InDisc(g.frame.player.pos)
    && Camera.PitchInRange(g.camera.pitch)
  }

  /** One event. A window `pointerup` reaches the pressed button (if any), the
      camera drag and the global release; a `pointercancel` only the global
      release; a pointer leaving a control button releases that button only. */
  function Step(g: State, e: Event, w: World, sqrt: real -> real): (r: State)
    requires IsSqrt(sqrt) && WellFormed(e)
    ensures Valid(g) ==> Valid(r)
    ensures e.AnimationFrame? ==>
              && r.lastMs == e.nowMs && r.camera == g.camera && r.controls == g.controls
              && r.frame.player.pos.y >= GROUND_Y
    ensures !e.AnimationFrame? ==> r.lastMs == g.lastMs && r.frame.player.pos == g.frame.player.pos
    ensures (e.JumpPressed? || e == KeyPressed("Space")) && g.frame.player.canJump ==>
              r.frame.player.vel.y == JUMP_SPEED && !r.frame.player.canJump && r.frame.hud == Jumping
    ensures e.KeyPressed? && e.code != "Space" ==> r.frame == g.frame
    ensures (e.PointerLifted? || e.PointerCancelled?) ==>
              && !r.controls.forward && !r.controls.back && !r.controls.left && !r.controls.right
              && r.frame == g.frame
    ensures e.PointerLifted? ==> !r.camera.dragging
    ensures e.PointerCancelled? ==> r.camera == g.camera
    ensures (e.JumpPressed? || e == KeyPressed("Space")) && !g.frame.player.canJump ==> r.frame == g.frame
    ensures (e.KeyPressed? || e.KeyReleased? || e.ButtonPressed? || e.ButtonLeft? || e.JumpPressed?) ==>
              r.camera == g.camera
    ensures (e.KeyReleased? || e.ButtonPressed? || e.ButtonLeft? || e.DragStart? || e.DragMove?) ==>
              r.frame == g.frame
    ensures (e.DragStart? || e.DragMove? || e.JumpPressed?) ==> r.controls == g.controls
    ensures e.KeyPressed? ==> r.controls == KeyDown(g.controls, e.code)
    ensures e.KeyReleased? ==> r.controls == KeyUp(g.controls, e.code)
    ensures e.ButtonPressed? ==> r.controls == Press(g.controls, e.flag)
    ensures e.ButtonLeft? ==> r.controls == Release(g.controls, e.flag)
    ensures e.AnimationFrame? ==>
              r.frame == Tick(g.frame.player, g.frame.hud, Steer(g.controls, e.forward, sqrt),
                              (e.nowMs - g.lastMs) / 1000.0, w, sqrt)
    ensures e.DragStart? ==> r.camera == Camera.PointerDown(g.camera, e.x, e.y)
    ensures e.DragMove? ==> r.camera == Camera.PointerMove(g.camera, e.x, e.y)
    ensures e.PointerLifted? ==> r.camera == Camera.PointerUp(g.camera)
    ensures (e.JumpPressed? || e == KeyPressed("Space")) ==> r.frame == AttemptJump(g.frame)
  {
    match e
    case AnimationFrame(nowMs, forward) =>
      var elapsed := (nowMs - g.lastMs) / 1000.0;
      var next := Tick(g.frame.player, g.frame.hud, Steer(g.controls, forward, sqrt), elapsed, w, sqrt);
      g.(frame := next, lastMs := nowMs)
    case KeyPressed(code) =>
      var c := KeyDown(g.controls, code);
      g.(frame := if code == "Space" then AttemptJump(g.frame) else g.frame, controls := c)
    case KeyReleased(code) =>
      g.(controls := KeyUp(g.controls, code))
    case DragStart(x, y) =>
      g.(camera := Camera.PointerDown(g.camera, x, y))
    case DragMove(x, y) =>
      g.(camera := Camera.PointerMove(g.camera, x, y))
    case PointerLifted(button) =>
      var c := if button.Some? then Release(g.controls, button.value) else g.controls;
      g.(camera := Camera.PointerUp(g.camera), controls := ReleaseAll(c))
    case PointerCancelled =>
      g.(controls := ReleaseAll(g.controls))
    case ButtonPressed(flag) =>
      g.(controls := Press(g.controls, flag))
    case ButtonLeft(flag) =>
      g.(controls := Release(g.controls, flag))
    case JumpPressed =>
      g.(frame := AttemptJump(g.frame))
  }

  /** A sequence of events, in order. */
  function Run(g: State, events: seq<Event>, w: World, sqrt: real -> real): (r: State)
    requires IsSqrt(sqrt)
    requires forall i :: 0 <= i < |events| ==> WellFormed(events[i])
    ensures Valid(g) ==> Valid(r)
    ensures r.frame.player.pos.y >= GROUND_Y || r.frame.player.pos == g.frame.player.pos
    decreases |events|
  {
    if |events| == 0 then
      g
    else
      Run(Step(g, events[0], w, sqrt), events[1..], w, sqrt)
  }
}

=== FILE: geometry.dfy ===
/** Points and directions of the scene. */
module Geometry {

  /** A three.js `Vector3`: y is up, the ground is the x/z plane. */
  datatype Vec3 = Vec3(x: real, y: real, z: real)

  /** A direction in the ground plane (a `Vector3` whose y component is zero). */
  datatype Heading = Heading(x: real, z: real)

  /** Squared distance from the vertical axis through the world origin. */
  function HorizNormSq(v: Vec3): real {
    v.x * v.x + v.z * v.z
  }

  function NormSq(h: Heading): real {
    h.x * h.x + h.z * h.z
  }

  lemma SquareNonNegative(a: real)
    ensures 0.0 <= a * a
  {
    if a < 0.0 {
      assert a * a == (-a) * (-a);
    }
  }

  lemma NormsNonNegative(h: Heading, v: Vec3)
    ensures 0.0 <= NormSq(h) && 0.0 <= HorizNormSq(v)
  {
    SquareNonNegative(h.x);
    SquareNonNegative(h.z);
    SquareNonNegative(v.x);
    SquareNonNegative(v.z);
  }

  predicate IsUnit(h: Heading) {
    NormSq(h) == 1.0
  }

  function Add(a: Heading, b: Heading): Heading {
    Heading(a.x + b.x, a.z + b.z)
  }

  function Sub(a: Heading, b: Heading): Heading {
    Heading(a.x - b.x, a.z - b.z)
  }

  /** `h` turned about the vertical axis by the angle whose cosine is `c` and
      whose sine is `s`, as three.js turns an object by a positive yaw. */
  function Yawed(c: real, s: real, h: Heading): Heading {
    Heading(c * h.x + s * h.z, c * h.z - s * h.x)
  }

  /** The camera's own right in the ground plane, `forward × up`. */
  function RightOf(f: Heading): Heading {
    Heading(-f.z, f.x)
  }

  /** The vector the source calls `right`: `crossVectors((0,1,0), forward)`,
      which is `up × forward`. */
  function SourceRight(f: Heading): Heading {
    Heading(f.z, -f.x)
  }

  /** The right direction is perpendicular to the heading and as long as it,
      so for a unit heading `normalize()` of it changes nothing. */
  lemma RightOfOrthonormal(f: Heading)
    ensures RightOf(f).x * f.x + RightOf(f).z * f.z == 0.0
    ensures NormSq(RightOf(f)) == NormSq(f)
  {
  }

  /** A three.js camera at rest looks along (0, 0, -1) with its right along
      (1, 0, 0); turned by any yaw, `RightOf` its look direction is its turned
      right. */
  lemma RightOfTurnsWithCamera(c: real, s: real)
    ensures RightOf(Yawed(c, s, Heading(0.0, -1.0))) == Yawed(c, s, Heading(1.0, 0.0))
  {
  }

  /** The source's `right` is the camera's left at every yaw: the exact
      opposite of `RightOf`. */
  lemma SourceRightPointsLeft(c: real, s: real, f: Heading)
    ensures SourceRight(Yawed(c, s, Heading(0.0, -1.0))) == Yawed(c, s, Heading(-1.0, 0.0))
    ensures SourceRight(f) == Heading(-RightOf(f).x, -RightOf(f).z)
  {
  }
}

=== FILE: obstacles.dfy ===
/** The obstacle registry and the movement-blocking collision test
    (`collidesWithObjects`, src/Game.jsx). Obstacles are read-only during the
    simulation; their random placement at scene start is an input here. */
module Obstacles {
  import opened Geometry

  const PLAYER_RADIUS: real := 0.6
  /** The fallback radii of the `collisionRadius || r` expressions. */
  const TREE_RADIUS: real := 1.2
  const HOUSE_RADIUS: real := 1.5

  /** A tree or a house: where its meshes were placed on the ground plane and the
      `collisionRadius` stored in its `userData` (0.0 stands for a falsy value). */
  datatype Obstacle = Obstacle(x: real, z: real, collisionRadius: real)

  datatype World = World(trees: seq<Obstacle>, houses: seq<Obstacle>)

  /** JavaScript `o.collisionRadius || fallback`. */
  function EffectiveRadius(o: Obstacle, fallback: real): real {
    if o.collisionRadius == 0.0 then fallback else o.collisionRadius
  }

  /** The strict radius-sum test in the ground plane; touching is not colliding. */
  predicate Overlaps(p: Vec3, o: Obstacle, fallback: real) {
    var dx := p.x - o.x;
    var dz := p.z - o.z;
    var r := PLAYER_RADIUS + EffectiveRadius(o, fallback);
    dx * dx + dz * dz < r * r
  }

  /** One `for ... of` loop of `collidesWithObjects`: true at the first obstacle
      that overlaps, false when the list is exhausted. */
  function HitsAny(p: Vec3, obs: seq<Obstacle>, fallback: real): (hit: bool)
    ensures hit <==> exists i :: 0 <= i < |obs| && Overlaps(p, obs[i], fallback)
  {
    if |obs| == 0 then false
    else if Overlaps(p, obs[0], fallback) then true
    else
      var rest := HitsAny(p, obs[1..], fallback);
      assert forall i :: 1 <= i < |obs| ==> obs[i] == obs[1..][i - 1];
      rest
  }

  /** `collidesWithObjects`, with every obstacle centred where its meshes stand:
      trees first, then houses. */
  function Collides(w: World, p: Vec3): (hit: bool)
    ensures hit <==> || (exists i :: 0 <= i < |w.trees| && Overlaps(p, w.trees[i], TREE_RADIUS))
                     || (exists i :: 0 <= i < |w.houses| && Overlaps(p, w.houses[i], HOUSE_RADIUS))
  {
    HitsAny(p, w.trees, TREE_RADIUS) || HitsAny(p, w.houses, HOUSE_RADIUS)
  }

  /** What `getWorldPosition` reports for an obstacle as the source builds it: the
      position of its group, which is never moved off the origin (only the trunk,
      leaves, base and roof meshes inside it are placed). */
  function AtGroupOrigin(o: Obstacle): Obstacle {
    Obstacle(0.0, 0.0, o.collisionRadius)
  }

  function GroupOrigins(obs: seq<Obstacle>): (r: seq<Obstacle>)
    ensures |r| == |obs|
    ensures forall i :: 0 <= i < |obs| ==> r[i] == AtGroupOrigin(obs[i])
  {
    seq(|obs|, i requires 0 <= i < |obs| => AtGroupOrigin(obs[i]))
  }

  /** `collidesWithObjects` as written: every obstacle is tested at the origin,
      whatever its placement. */
  function CollidesAsWritten(w: World, p: Vec3): (hit: bool)
    ensures hit <==> || (exists i :: 0 <= i < |w.trees| && Overlaps(p, AtGroupOrigin(w.trees[i]), TREE_RADIUS))
                     || (exists i :: 0 <= i < |w.houses| && Overlaps(p, AtGroupOrigin(w.houses[i]), HOUSE_RADIUS))
  {
    Collides(World(GroupOrigins(w.trees), GroupOrigins(w.houses)), p)
  }

  /** Counterexample to the as-written test: a lone tree twenty units away blocks a
      player standing at the origin, and does not block a player pressed against it. */
  lemma FarTreeBlocksOnlyAsWritten()
    ensures var w := World([Obstacle(20.0, 0.0, TREE_RADIUS)], []);
            && CollidesAsWritten(w, Vec3(0.0, 1.2, 0.0))
            && !Collides(w, Vec3(0.0, 1.2, 0.0))
            && Collides(w, Vec3(19.0, 1.2, 0.0))
            && !CollidesAsWritten(w, Vec3(19.0, 1.2, 0.0))
  {
    var w := World([Obstacle(20.0, 0.0, TREE_RADIUS)], []);
    assert Overlaps(Vec3(19.0, 1.2, 0.0), w.trees[0], TREE_RADIUS);
  }

  /** A tree of radius 1.2 at (2, 0) and a player of radius 0.6: no collision at the
      origin (distance 2 > 1.8), none at exact contact (distance 1.8), a collision
      at x = 1. */
  lemma TreeContactScenario()
    ensures var w := World([Obstacle(2.0, 0.0, TREE_RADIUS)], []);
            && !Collides(w, Vec3(0.0, 1.2, 0.0))
            && !Collides(w, Vec3(0.2, 1.2, 0.0))
            && Collides(w, Vec3(1.0, 1.2, 0.0))
  {
    var w := World([Obstacle(2.0, 0.0, TREE_RADIUS)], []);
    assert Overlaps(Vec3(1.0, 1.2, 0.0), w.trees[0], TREE_RADIUS);
  }
}

=== FILE: physics.dfy ===
/** The per-frame player simulation of `animate` (src/Game.jsx): step size,
    steering, velocity smoothing, gravity, ground clamp, world-boundary clamp and
    obstacle rejection, plus the jump handlers that write the same player record. */
module Physics {
  import opened RealMath
  import opened Geometry
  import opened Controls
  import opened Obstacles

  const MAX_DT: real := 0.05
  const SPEED: real := 6.0
  const SMOOTHING: real := 0.12
  const GRAVITY: real := 9.8
  const JUMP_SPEED: real := 7.0
  const GROUND_Y: real := 1.2
  const WORLD_RADIUS: real := 40.0
  /** The horizontal distance from the origin the player may not exceed. */
  const LIMIT: real := WORLD_RADIUS - 1.0
  const BOUNDARY_DAMPING: real := 0.2
  const EYE_HEIGHT: real := 0.9

  /** The player collider: mesh position, velocity and the jump latch. Its speed
      (6) and radius (0.6) are constants. */
  datatype Player = Player(pos: Vec3, vel: Vec3, canJump: bool)

  const Spawn := Player(Vec3(0.0, 1.2, 0.0), Vec3(0.0, 0.0, 0.0), true)

  /** The HUD line: "Bem-vindo!", "Andando...", "Parado", "Pulando!",
      "Colidiu com obstáculo". It keeps its value until something sets it. */
  datatype Hud = Welcome | Walking | Idle | Jumping | Collided

  datatype Frame = Frame(player: Player, hud: Hud)

  /** Whether any movement input survives cancellation, and the horizontal
      velocity the player is steered toward. */
  datatype Steering = Steering(moving: bool, target: Heading)

  predicate InDisc(v: Vec3) {
    HorizNormSq(v) <= LIMIT * LIMIT
  }

  lemma SameHorizontal(a: Vec3, b: Vec3)
    requires a.x == b.x && a.z == b.z
    ensures HorizNormSq(a) == HorizNormSq(b)
    ensures InDisc(a) == InDisc(b)
  {
  }

  lemma ProductPositive(a: real, b: real)
    requires 0.0 < a && 0.0 < b
    ensures 0.0 < a * b
  {
    assert a * b > 0.0 * b;
  }

  /** `Math.min(0.05, elapsed)`: the simulated time of one frame, in seconds. */
  function StepSize(elapsed: real): (dt: real)
    ensures dt <= MAX_DT && dt <= elapsed
    ensures dt == elapsed || dt == MAX_DT
  {
    Min(MAX_DT, elapsed)
  }

  /** +1, 0 or -1 along one axis of the control pad. */
  function Axis(plus: bool, minus: bool): real {
    (if plus then 1.0 else 0.0) - (if minus then 1.0 else 0.0)
  }

  /** The `move` vector for a given right direction: forward added, back
      subtracted, left subtracted (right direction subtracted), right added, in
      the source's order. */
  function MoveWith(c: Controls, f: Heading, r: Heading): Heading {
    var m0 := Heading(0.0, 0.0);
    var m1 := if c.forward then Add(m0, f) else m0;
    var m2 := if c.back then Sub(m1, f) else m1;
    var m3 := if c.left then Sub(m2, r) else m2;
    if c.right then Add(m3, r) else m3
  }

  /** The `move` vector with the camera's own right direction. */
  function Move(c: Controls, f: Heading): Heading {
    MoveWith(c, f, RightOf(f))
  }

  /** The `move` vector as the source builds it, with `up × forward`. */
  function MoveAsWritten(c: Controls, f: Heading): Heading {
    MoveWith(c, f, SourceRight(f))
  }

  /** Holding only the right control with the camera at rest (looking along
      (0, 0, -1)), the source moves the player along -x, to the camera's left. */
  lemma RightKeyStrafesLeftAsWritten()
    ensures MoveAsWritten(Controls(false, false, false, true, false), Heading(0.0, -1.0))
            == Heading(-1.0, 0.0)
  {
    var f := Heading(0.0, -1.0);
    OnlyRightHeld(f, SourceRight(f));
  }

  /** Holding only the right control with the camera at rest, `Move` moves the
      player along +x, the camera's right. */
  lemma RightKeyStrafesRight()
    ensures Move(Controls(false, false, false, true, false), Heading(0.0, -1.0))
            == Heading(1.0, 0.0)
  {
    var f := Heading(0.0, -1.0);
    OnlyRightHeld(f, RightOf(f));
  }

  /** With only the right control held, `move` is the right direction itself. */
  lemma OnlyRightHeld(f: Heading, r: Heading)
    ensures MoveWith(Controls(false, false, false, true, false), f, r) == r
  {
  }

  /** `move` is the forward heading weighted by the forward/back axis plus the
      right direction `(-f.z, f.x)` weighted by the right/left axis. */
  lemma MoveComponents(c: Controls, f: Heading)
    ensures Move(c, f).x == Axis(c.forward, c.back) * f.x - Axis(c.right, c.left) * f.z
    ensures Move(c, f).z == Axis(c.forward, c.back) * f.z + Axis(c.right, c.left) * f.x
  {
    if c.forward { if c.back {} else {} } else { if c.back {} else {} }
  }

  /** A unit heading and its right direction are orthonormal, so the squared
      length of `a * forward + b * right` is `a * a + b * b`. */
  lemma OrthonormalCombination(m: Heading, f: Heading, a: real, b: real)
    requires IsUnit(f)
    requires m.x == a * f.x - b * f.z && m.z == a * f.z + b * f.x
    ensures NormSq(m) == a * a + b * b
  {
    var fx, fz := f.x, f.z;
    assert (a * fx - b * fz) * (a * fx - b * fz) + (a * fz + b * fx) * (a * fz + b * fx)
        == (a * a) * (fx * fx + fz * fz) + (b * b) * (fx * fx + fz * fz);
  }

  /** How many of the two control axes have exactly one of their opposing
      controls held. */
  function ActiveAxes(c: Controls): real {
    (if c.forward != c.back then 1.0 else 0.0) + (if c.left != c.right then 1.0 else 0.0)
  }

  lemma AxisSquare(plus: bool, minus: bool)
    ensures Axis(plus, minus) * Axis(plus, minus) == if plus != minus then 1.0 else 0.0
  {
  }

  /** A combination of a unit heading and its right direction, weighted by the
      two control axes, has squared length equal to the number of active axes. */
  lemma AxesNormSq(m: Heading, f: Heading, c: Controls)
    requires IsUnit(f)
    requires m.x == Axis(c.forward, c.back) * f.x - Axis(c.right, c.left) * f.z
    requires m.z == Axis(c.forward, c.back) * f.z + Axis(c.right, c.left) * f.x
    ensures NormSq(m) == ActiveAxes(c)
  {
    var a, b := Axis(c.forward, c.back), Axis(c.right, c.left);
    OrthonormalCombination(m, f, a, b);
    AxisSquare(c.forward, c.back);
    AxisSquare(c.right, c.left);
  }

  /** With a unit heading, the squared length of `move` is the number of active
      axes: opposing controls cancel and a diagonal is longer than 1. */
  lemma {:induction false} MoveNormSq(c: Controls, f: Heading)
    requires IsUnit(f)
    ensures NormSq(Move(c, f)) == ActiveAxes(c)
  {
    MoveComponents(c, f);
    AxesNormSq(Move(c, f), f, c);
  }

  /** `move.length() > 0`, then `move.normalize().multiplyScalar(speed)`. */
  function SteerAlong(m: Heading, sqrt: real -> real): (s: Steering)
    requires IsSqrt(sqrt)
    ensures s.moving <==> NormSq(m) > 0.0
    ensures !s.moving ==> s.target == Heading(0.0, 0.0)
  {
    var len := sqrt(NormSq(m));
    NormsNonNegative(m, Vec3(0.0, 0.0, 0.0));
    SqrtAt(sqrt, NormSq(m));
    RootExceedsIff(NormSq(m), len, 0.0);
    if len > 0.0 then
      var k := SPEED / len;
      Steering(true, Heading(m.x * k, m.z * k))
    else
      Steering(false, Heading(0.0, 0.0))
  }

  /** `t` has the player speed 6 and points the same way as `m`. */
  predicate AtSpeedAlong(t: Heading, m: Heading) {
    && NormSq(t) == SPEED * SPEED
    && t.x * m.z == t.z * m.x
    && t.x * m.x + t.z * m.z > 0.0
  }

  /** A nonzero `move` becomes a velocity of length 6 pointing the same way. */
  lemma SteerAlongSpeed(m: Heading, sqrt: real -> real)
    requires IsSqrt(sqrt)
    ensures var s := SteerAlong(m, sqrt);
            s.moving ==> AtSpeedAlong(s.target, m)
  {
    var len := sqrt(NormSq(m));
    NormsNonNegative(m, Vec3(0.0, 0.0, 0.0));
    SqrtAt(sqrt, NormSq(m));
    RootExceedsIff(NormSq(m), len, 0.0);
    if len > 0.0 {
      var k := SPEED / len;
      ScaledNorm(m.x, m.z, k, len, SPEED);
      assert (m.x * k) * m.x + (m.z * k) * m.z == k * NormSq(m);
      ProductPositive(k, NormSq(m));
    }
  }

  /** The desired horizontal velocity for the held controls: nothing when
      opposing controls cancel or none is held. */
  function Steer(c: Controls, f: Heading, sqrt: real -> real): (s: Steering)
    requires IsSqrt(sqrt) && IsUnit(f)
    ensures s.moving <==> c.forward != c.back || c.left != c.right
    ensures !s.moving ==> s.target == Heading(0.0, 0.0)
  {
    MoveNormSq(c, f);
    SteerAlong(Move(c, f), sqrt)
  }

  /** When steering, the target velocity has the player speed 6 and points along
      `move`. */
  lemma SteerSpeed(c: Controls, f: Heading, sqrt: real -> real)
    requires IsSqrt(sqrt) && IsUnit(f)
    ensures var s := Steer(c, f, sqrt);
            s.moving ==> AtSpeedAlong(s.target, Move(c, f))
  {
    SteerAlongSpeed(Move(c, f), sqrt);
  }

  /** Horizontal velocity eased toward the steering target with the fixed factor
      0.12 (whatever the step size), then gravity applied to the vertical velocity. */
  function Accelerate(p: Player, s: Steering, dt: real): (q: Player)
    ensures q.vel.x - s.target.x == (1.0 - SMOOTHING) * (p.vel.x - s.target.x)
    ensures q.vel.z - s.target.z == (1.0 - SMOOTHING) * (p.vel.z - s.target.z)
    ensures q.vel.y == p.vel.y - GRAVITY * dt
    ensures q.pos == p.pos && q.canJump == p.canJump
  {
    var vel := Vec3(Lerp(p.vel.x, s.target.x, SMOOTHING),
                    p.vel.y - GRAVITY * dt,
                    Lerp(p.vel.z, s.target.z, SMOOTHING));
    Player(p.pos, vel, p.canJump)
  }

  /** `position.clone().addScaledVector(velocity, dt)`. */
  function Advance(q: Player, dt: real): Player {
    Player(Vec3(q.pos.x + q.vel.x * dt, q.pos.y + q.vel.y * dt, q.pos.z + q.vel.z * dt), q.vel, q.canJump)
  }

  /** Ground contact: a proposal below the ground is lifted onto it, stops falling
      and re-arms the jump. */
  function GroundClamp(q: Player): (r: Player)
    ensures r.pos.y >= GROUND_Y
    ensures q.pos.y < GROUND_Y ==> r.pos.y == GROUND_Y && r.vel.y == 0.0 && r.canJump
    ensures q.pos.y >= GROUND_Y ==> r == q
    ensures r.pos.x == q.pos.x && r.pos.z == q.pos.z
    ensures r.vel.x == q.vel.x && r.vel.z == q.vel.z
  {
    if q.pos.y < GROUND_Y then
      Player(q.pos.(y := GROUND_Y), q.vel.(y := 0.0), true)
    else
      q
  }

  /** World boundary: a proposal farther than 39 from the vertical axis is pulled
      back onto that circle (`setLength`) and its horizontal velocity is damped by
      0.2; the vertical state is untouched. */
  function BoundaryClamp(q: Player, sqrt: real -> real): (r: Player)
    requires IsSqrt(sqrt)
    ensures r.pos.y == q.pos.y && r.vel.y == q.vel.y && r.canJump == q.canJump
    ensures InDisc(r.pos)
    ensures InDisc(q.pos) ==> r == q
    ensures !InDisc(q.pos) ==>
              r.vel.x == BOUNDARY_DAMPING * q.vel.x && r.vel.z == BOUNDARY_DAMPING * q.vel.z
  {
    var len := sqrt(HorizNormSq(q.pos));
    NormsNonNegative(Heading(0.0, 0.0), q.pos);
    SqrtAt(sqrt, HorizNormSq(q.pos));
    RootExceedsIff(HorizNormSq(q.pos), len, LIMIT);
    if len > LIMIT then
      var k := LIMIT / len;
      ScaledNorm(q.pos.x, q.pos.z, k, len, LIMIT);
      Player(Vec3(q.pos.x * k, q.pos.y, q.pos.z * k),
             Vec3(q.vel.x * BOUNDARY_DAMPING, q.vel.y, q.vel.z * BOUNDARY_DAMPING),
             q.canJump)
    else
      q
  }

  /** A proposal outside the disc lands exactly on its rim, on the ray from the
      vertical axis through the proposal. */
  lemma BoundaryClampOnRim(q: Player, sqrt: real -> real)
    requires IsSqrt(sqrt)
    requires !InDisc(q.pos)
    ensures var r := BoundaryClamp(q, sqrt);
            && HorizNormSq(r.pos) == LIMIT * LIMIT
            && r.pos.x * q.pos.z == r.pos.z * q.pos.x
            && r.pos.x * q.pos.x + r.pos.z * q.pos.z > 0.0
  {
    var len := sqrt(HorizNormSq(q.pos));
    NormsNonNegative(Heading(0.0, 0.0), q.pos);
    SqrtAt(sqrt, HorizNormSq(q.pos));
    RootExceedsIff(HorizNormSq(q.pos), len, LIMIT);
    var k := LIMIT / len;
    ScaledNorm(q.pos.x, q.pos.z, k, len, LIMIT);
    assert (q.pos.x * k) * q.pos.x + (q.pos.z * k) * q.pos.z == k * HorizNormSq(q.pos);
    ProductPositive(k, HorizNormSq(q.pos));
  }

  /** The vertical result of a frame, before any horizontal test. */
  function FallTo(p: Player, dt: real): real {
    p.pos.y + (p.vel.y - GRAVITY * dt) * dt
  }

  /** The proposed player state before the obstacle test. Vertically it is the
      fall under gravity stopped by the ground; the jump is re-armed exactly when
      that fall reaches below the ground. */
  function Propose(p: Player, s: Steering, dt: real, sqrt: real -> real): (q: Player)
    requires IsSqrt(sqrt)
    ensures q.pos.y >= GROUND_Y && InDisc(q.pos)
    ensures FallTo(p, dt) < GROUND_Y ==> q.pos.y == GROUND_Y && q.vel.y == 0.0 && q.canJump
    ensures FallTo(p, dt) >= GROUND_Y ==>
              q.pos.y == FallTo(p, dt) && q.vel.y == p.vel.y - GRAVITY * dt && q.canJump == p.canJump
  {
    var accelerated := Accelerate(p, s, dt);
    var advanced := Advance(accelerated, dt);
    assert advanced.pos.y == FallTo(p, dt);
    var grounded := GroundClamp(advanced);
    BoundaryClamp(grounded, sqrt)
  }

  /** Where the proposal lies horizontally: the position moved by the eased
      velocity over the step, kept as it is inside the disc of radius 39, and
      otherwise put on the rim along the same ray with the horizontal velocity
      damped by 0.2. */
  lemma ProposeHorizontal(p: Player, s: Steering, dt: real, sqrt: real -> real)
    requires IsSqrt(sqrt)
    ensures var a := Accelerate(p, s, dt);
            var d := Advance(a, dt).pos;
            var q := Propose(p, s, dt, sqrt);
            && d.x == p.pos.x + a.vel.x * dt && d.z == p.pos.z + a.vel.z * dt
            && (InDisc(d) ==> && q.pos.x == d.x && q.pos.z == d.z
                              && q.vel.x == a.vel.x && q.vel.z == a.vel.z)
            && (!InDisc(d) ==> && HorizNormSq(q.pos) == LIMIT * LIMIT
                               && q.pos.x * d.z == q.pos.z * d.x
                               && q.pos.x * d.x + q.pos.z * d.z > 0.0
                               && q.vel.x == BOUNDARY_DAMPING * a.vel.x
                               && q.vel.z == BOUNDARY_DAMPING * a.vel.z)
  {
    var a := Accelerate(p, s, dt);
    var d := Advance(a, dt).pos;
    var g := GroundClamp(Advance(a, dt));
    assert g.pos.x == d.x && g.pos.z == d.z && g.vel.x == a.vel.x && g.vel.z == a.vel.z;
    SameHorizontal(g.pos, d);
    if !InDisc(d) {
      BoundaryClampOnRim(g, sqrt);
    }
  }

  /** Obstacle rejection: on a collision the horizontal displacement and velocity
      are thrown away and the vertical result is kept. */
  function Resolve(p: Player, q: Player, collided: bool): (r: Player)
    ensures collided ==> r.pos == Vec3(p.pos.x, q.pos.y, p.pos.z)
                         && r.vel == Vec3(0.0, q.vel.y, 0.0) && r.canJump == q.canJump
    ensures !collided ==> r == q
  {
    if collided then
      Player(Vec3(p.pos.x, q.pos.y, p.pos.z), Vec3(0.0, q.vel.y, 0.0), q.canJump)
    else
      q
  }

  /** The HUD updates of one frame: "Andando..." when steering, "Parado" when idle
      and the jump was armed at the start of the frame, then "Colidiu com
      obstáculo" on a collision; otherwise the text is left as it was. */
  function NextHud(hud: Hud, armed: bool, moving: bool, collided: bool): (h: Hud)
    ensures collided ==> h == Collided
    ensures !collided && moving ==> h == Walking
    ensures !collided && !moving && armed ==> h == Idle
    ensures !collided && !moving && !armed ==> h == hud
  {
    var h1 := if moving then Walking else if armed then Idle else hud;
    if collided then Collided else h1
  }

  /** The HUD update of a frame is settled: repeating it with the same inputs
      shows the same text, and the text it shows depends on the previous text
      only when the frame neither collides, steers nor starts armed. */
  lemma NextHudSettled(hud: Hud, other: Hud, armed: bool, moving: bool, collided: bool)
    ensures NextHud(NextHud(hud, armed, moving, collided), armed, moving, collided)
            == NextHud(hud, armed, moving, collided)
    ensures collided || moving || armed ==>
              NextHud(hud, armed, moving, collided) == NextHud(other, armed, moving, collided)
  {
  }

  /** One `animate` frame given the steering of the held controls and the
      seconds elapsed since the previous frame. */
  function Tick(p: Player, hud: Hud, s: Steering, elapsed: real, w: World,
                sqrt: real -> real): (r: Frame)
    requires IsSqrt(sqrt)
    ensures r.player.pos.y >= GROUND_Y
    ensures InDisc(p.pos) ==> InDisc(r.player.pos)
    ensures r.player.canJump <==> p.canJump || FallTo(p, StepSize(elapsed)) < GROUND_Y
    ensures var q := Propose(p, s, StepSize(elapsed), sqrt);
            if Collides(w, q.pos) then
              && r.player.pos == Vec3(p.pos.x, q.pos.y, p.pos.z)
              && r.player.vel == Vec3(0.0, q.vel.y, 0.0)
              && r.hud == Collided
            else
              && r.player == q
              && r.hud == NextHud(hud, p.canJump, s.moving, false)
  {
    var dt := StepSize(elapsed);
    var q := Propose(p, s, dt, sqrt);
    var collided := Collides(w, q.pos);
    var next := Resolve(p, q, collided);
    assert collided ==> InDisc(next.pos) == InDisc(p.pos) by {
      if collided { SameHorizontal(next.pos, p.pos); }
    }
    Frame(next, NextHud(hud, p.canJump, s.moving, collided))
  }

  /** The frame as the source computes it, with the as-written collision test. */
  function TickAsWritten(p: Player, hud: Hud, s: Steering, elapsed: real, w: World,
                         sqrt: real -> real): (r: Frame)
    requires IsSqrt(sqrt)
    ensures r.player.pos.y >= GROUND_Y
    ensures var q := Propose(p, s, StepSize(elapsed), sqrt);
            if CollidesAsWritten(w, q.pos) then
              && r.player.pos == Vec3(p.pos.x, q.pos.y, p.pos.z)
              && r.player.vel == Vec3(0.0, q.vel.y, 0.0)
              && r.hud == Collided
            else
              && r.player == q
              && r.hud == NextHud(hud, p.canJump, s.moving, false)
  {
    var dt := StepSize(elapsed);
    var q := Propose(p, s, dt, sqrt);
    var collided := CollidesAsWritten(w, q.pos);
    Frame(Resolve(p, q, collided), NextHud(hud, p.canJump, s.moving, collided))
  }

  /** `attemptJump` and the armed branch of `handleJumpPress`. */
  function AttemptJump(fr: Frame): (r: Frame)
    ensures fr.player.canJump ==>
              && r.player.vel == fr.player.vel.(y := JUMP_SPEED)
              && r.player.pos == fr.player.pos
              && !r.player.canJump
              && r.hud == Jumping
    ensures !fr.player.canJump ==> r == fr
  {
    if fr.player.canJump then
      Frame(Player(fr.player.pos, fr.player.vel.(y := JUMP_SPEED), false), Jumping)
    else
      fr
  }

  /** A jump request changes only the vertical velocity, the jump flag and the
      HUD, so it keeps a player at rest at the origin there. */
  lemma JumpKeepsHorizontal(fr: Frame)
    ensures var j := AttemptJump(fr);
            && j.player.pos == fr.player.pos
            && j.player.vel.x == fr.player.vel.x && j.player.vel.z == fr.player.vel.z
            && (AtRestAtOrigin(fr) ==> AtRestAtOrigin(j))
  {
  }

  /** Where the camera is put after the frame: 0.9 above the player. */
  function EyePosition(p: Player): (e: Vec3)
    ensures e.x == p.pos.x && e.z == p.pos.z && e.y == p.pos.y + EYE_HEIGHT
    ensures p.pos.y >= GROUND_Y ==> e.y >= GROUND_Y + EYE_HEIGHT
  {
    Vec3(p.pos.x, p.pos.y + EYE_HEIGHT, p.pos.z)
  }

  /** With no target to ease towards, each horizontal velocity component shrinks
      by the factor 0.88, whatever the step. */
  lemma IdleSteeringDecays(p: Player, s: Steering, dt: real)
    requires s.target == Heading(0.0, 0.0)
    ensures var q := Accelerate(p, s, dt);
            && q.vel.x == (1.0 - SMOOTHING) * p.vel.x
            && q.vel.z == (1.0 - SMOOTHING) * p.vel.z
            && Abs(q.vel.x) == 0.88 * Abs(p.vel.x)
            && Abs(q.vel.z) == 0.88 * Abs(p.vel.z)
  {
  }

  /** With no movement control held, or opposing ones cancelling, each horizontal
      velocity component shrinks by the factor 0.88 per frame, whatever the step. */
  lemma IdleVelocityDecays(p: Player, c: Controls, f: Heading, dt: real, sqrt: real -> real)
    requires IsSqrt(sqrt) && IsUnit(f)
    requires c.forward == c.back && c.left == c.right
    ensures var q := Accelerate(p, Steer(c, f, sqrt), dt);
            && q.vel.x == (1.0 - SMOOTHING) * p.vel.x
            && q.vel.z == (1.0 - SMOOTHING) * p.vel.z
            && Abs(q.vel.x) == 0.88 * Abs(p.vel.x)
            && Abs(q.vel.z) == 0.88 * Abs(p.vel.z)
  {
    var s := Steer(c, f, sqrt);
    assert s.target == Heading(0.0, 0.0);
    IdleSteeringDecays(p, s, dt);
  }

  /** The smoothed horizontal velocity does not depend on the step size. */
  lemma SmoothingIgnoresStepSize(p: Player, s: Steering, dt1: real, dt2: real)
    ensures Accelerate(p, s, dt1).vel.x == Accelerate(p, s, dt2).vel.x
    ensures Accelerate(p, s, dt1).vel.z == Accelerate(p, s, dt2).vel.z
  {
  }

  /** A jump taken on the ground is not re-armed by the next frame (which lasts a
      positive time), so a second jump request before landing is ignored. */
  lemma NoDoubleJump(fr: Frame, s: Steering, elapsed: real, w: World, sqrt: real -> real)
    requires IsSqrt(sqrt)
    requires fr.player.canJump && fr.player.pos.y >= GROUND_Y
    requires 0.0 < elapsed
    ensures var j := AttemptJump(fr);
            var t := Tick(j.player, j.hud, s, elapsed, w, sqrt);
            !t.player.canJump && AttemptJump(t) == t
  {
    var j := AttemptJump(fr);
    JumpLeavesGround(j.player, StepSize(elapsed));
  }

  /** A player launched upwards at 7 from the ground or above does not fall below
      the ground within one frame of at most 0.05 seconds. */
  lemma JumpLeavesGround(p: Player, dt: real)
    requires p.vel.y == JUMP_SPEED && p.pos.y >= GROUND_Y
    requires 0.0 < dt <= MAX_DT
    ensures FallTo(p, dt) > p.pos.y
  {
    var rise := JUMP_SPEED - GRAVITY * dt;
    assert rise > 0.0;
    ProductPositive(rise, dt);
    assert FallTo(p, dt) == p.pos.y + rise * dt;
  }

  /** A player falling at 3 units per second from height 1.1 over a 0.02 second
      frame is put on the ground at 1.2, stops falling and may jump again. */
  lemma FallingPlayerLands(s: Steering, w: World, sqrt: real -> real)
    requires IsSqrt(sqrt)
    ensures var p := Player(Vec3(0.0, 1.1, 0.0), Vec3(0.0, -3.0, 0.0), false);
            var r := Tick(p, Jumping, s, 0.02, w, sqrt);
            r.player.pos.y == GROUND_Y && r.player.vel.y == 0.0 && r.player.canJump
  {
    var p := Player(Vec3(0.0, 1.1, 0.0), Vec3(0.0, -3.0, 0.0), false);
    assert StepSize(0.02) == 0.02;
    assert FallTo(p, 0.02) < GROUND_Y;
    TickLands(p, Jumping, s, 0.02, w, sqrt);
  }

  /** A frame whose free fall ends below the ground puts the player on it, stopped
      and armed, whether or not it collides. */
  lemma TickLands(p: Player, hud: Hud, s: Steering, elapsed: real, w: World,
                  sqrt: real -> real)
    requires IsSqrt(sqrt)
    requires FallTo(p, StepSize(elapsed)) < GROUND_Y
    ensures var r := Tick(p, hud, s, elapsed, w, sqrt);
            r.player.pos.y == GROUND_Y && r.player.vel.y == 0.0 && r.player.canJump
  {
    var q := Propose(p, s, StepSize(elapsed), sqrt);
    assert q.pos.y == GROUND_Y && q.vel.y == 0.0;
  }

  /** A horizontal velocity of length 0 or 6, eased from rest with factor 0.12 and
      applied for at most 0.05 seconds, moves the player less than 1.8. */
  lemma DriftFromRest(v: Vec3, t: Heading, dt: real)
    requires NormSq(t) == SPEED * SPEED || t == Heading(0.0, 0.0)
    requires 0.0 <= dt <= MAX_DT
    requires v.x == SMOOTHING * t.x * dt && v.z == SMOOTHING * t.z * dt
    ensures HorizNormSq(v) < (PLAYER_RADIUS + TREE_RADIUS) * (PLAYER_RADIUS + TREE_RADIUS)
  {
    var k := SMOOTHING * dt;
    assert SMOOTHING * t.x * dt == t.x * k;
    assert SMOOTHING * t.z * dt == t.z * k;
    if t == Heading(0.0, 0.0) {
    } else {
      ScaledNorm(t.x, t.z, k, SPEED, k * SPEED);
      var u := k * SPEED;
      assert 0.0 <= u <= 0.036;
      assert u * u <= 0.036 * u;
      assert 0.036 * u <= 0.036 * 0.036;
    }
  }

  /** One frame from rest at the origin proposes a point less than 1.8 from it. */
  lemma ProposalFromRest(p: Player, s: Steering, dt: real, sqrt: real -> real)
    requires IsSqrt(sqrt)
    requires NormSq(s.target) == SPEED * SPEED || s.target == Heading(0.0, 0.0)
    requires p.pos.x == 0.0 && p.pos.z == 0.0 && p.vel.x == 0.0 && p.vel.z == 0.0
    requires 0.0 <= dt <= MAX_DT
    ensures HorizNormSq(Propose(p, s, dt, sqrt).pos)
            < (PLAYER_RADIUS + TREE_RADIUS) * (PLAYER_RADIUS + TREE_RADIUS)
  {
    var g := GroundClamp(Advance(Accelerate(p, s, dt), dt));
    var drift := Vec3(SMOOTHING * s.target.x * dt, 0.0, SMOOTHING * s.target.z * dt);
    DriftFromRest(drift, s.target, dt);
    assert g.pos.x == drift.x && g.pos.z == drift.z;
    SameHorizontal(g.pos, drift);
    assert BoundaryClamp(g, sqrt) == g;
  }

  /** One frame of the source keeps a player who starts at rest at the origin
      there when the first tree carries its usual radius: every obstacle is
      tested at the origin, and one frame from rest cannot carry the player 1.8
      units away. The steering is any the controls can produce (length 6 or
      zero, see `SteerAsWrittenTargetSpeed`). */
  lemma AsWrittenPlayerStaysAtOrigin(p: Player, hud: Hud, s: Steering, elapsed: real,
                                     w: World, sqrt: real -> real)
    requires IsSqrt(sqrt)
    requires NormSq(s.target) == SPEED * SPEED || s.target == Heading(0.0, 0.0)
    requires |w.trees| > 0 && w.trees[0].collisionRadius == TREE_RADIUS
    requires p.pos.x == 0.0 && p.pos.z == 0.0 && p.vel.x == 0.0 && p.vel.z == 0.0
    requires 0.0 <= elapsed
    ensures var r := TickAsWritten(p, hud, s, elapsed, w, sqrt);
            && r.player.pos.x == 0.0 && r.player.pos.z == 0.0
            && r.player.vel.x == 0.0 && r.player.vel.z == 0.0
            && r.hud == Collided
  {
    var dt := StepSize(elapsed);
    RestProposalCollidesAsWritten(p, s, dt, w, sqrt);
  }

  /** The inputs of one frame: the steering of the held controls and the
      elapsed seconds. */
  datatype FrameInput = FrameInput(steering: Steering, elapsed: real)

  /** A frame input as the controls produce it, with time not running
      backwards: a steering of length 6 or zero and a non-negative elapsed time. */
  predicate RestlessInput(i: FrameInput) {
    && 0.0 <= i.elapsed
    && (NormSq(i.steering.target) == SPEED * SPEED || i.steering.target == Heading(0.0, 0.0))
  }

  /** A run of frames of the source, with the as-written collision test. */
  function FramesAsWritten(fr: Frame, inputs: seq<FrameInput>, w: World, sqrt: real -> real): (r: Frame)
    requires IsSqrt(sqrt)
    ensures r.player.pos.y >= GROUND_Y || r == fr
    decreases |inputs|
  {
    if |inputs| == 0 then
      fr
    else
      var next := TickAsWritten(fr.player, fr.hud, inputs[0].steering, inputs[0].elapsed, w, sqrt);
      FramesAsWritten(next, inputs[1..], w, sqrt)
  }

  /** The player stands still at the origin, horizontally. */
  predicate AtRestAtOrigin(fr: Frame) {
    && fr.player.pos.x == 0.0 && fr.player.pos.z == 0.0
    && fr.player.vel.x == 0.0 && fr.player.vel.z == 0.0
  }

  /** As written, a player at rest at the origin (where it spawns) never leaves
      it over any run of frames with non-negative elapsed times, whatever the
      controls steer (length 6 or zero, see `SteerAsWrittenTargetSpeed`). */
  lemma {:induction false} AsWrittenPlayerPinned(fr: Frame, inputs: seq<FrameInput>, w: World,
                                                 sqrt: real -> real)
    requires IsSqrt(sqrt)
    requires forall i :: 0 <= i < |inputs| ==> RestlessInput(inputs[i])
    requires |w.trees| > 0 && w.trees[0].collisionRadius == TREE_RADIUS
    requires AtRestAtOrigin(fr)
    ensures AtRestAtOrigin(FramesAsWritten(fr, inputs, w, sqrt))
    decreases |inputs|
  {
    if |inputs| > 0 {
      var next := PinnedFrame(fr, inputs, w, sqrt);
      AsWrittenPlayerPinned(next, inputs[1..], w, sqrt);
    }
  }

  /** The first as-written frame of a run keeps a player at rest at the origin
      there; the run goes on from that frame with the remaining inputs. */
  lemma PinnedFrame(fr: Frame, inputs: seq<FrameInput>, w: World, sqrt: real -> real)
      returns (next: Frame)
    requires IsSqrt(sqrt) && |inputs| > 0
    requires forall i :: 0 <= i < |inputs| ==> RestlessInput(inputs[i])
    requires |w.trees| > 0 && w.trees[0].collisionRadius == TREE_RADIUS
    requires AtRestAtOrigin(fr)
    ensures AtRestAtOrigin(next)
    ensures forall k :: 0 <= k < |inputs[1..]| ==> RestlessInput(inputs[1..][k])
    ensures FramesAsWritten(fr, inputs, w, sqrt) == FramesAsWritten(next, inputs[1..], w, sqrt)
  {
    PinnedTick(fr, inputs[0], w, sqrt);
    next := TickAsWritten(fr.player, fr.hud, inputs[0].steering, inputs[0].elapsed, w, sqrt);
    RestlessTail(inputs);
  }

  /** One as-written frame keeps a player at rest at the origin there. */
  lemma PinnedTick(fr: Frame, i: FrameInput, w: World, sqrt: real -> real)
    requires IsSqrt(sqrt) && RestlessInput(i)
    requires |w.trees| > 0 && w.trees[0].collisionRadius == TREE_RADIUS
    requires AtRestAtOrigin(fr)
    ensures AtRestAtOrigin(TickAsWritten(fr.player, fr.hud, i.steering, i.elapsed, w, sqrt))
  {
    AsWrittenPlayerStaysAtOrigin(fr.player, fr.hud, i.steering, i.elapsed, w, sqrt);
  }

  /** Every input after the first of a sequence of frame inputs as the controls
      produce them is one too. */
  lemma RestlessTail(inputs: seq<FrameInput>)
    requires |inputs| > 0
    requires forall i :: 0 <= i < |inputs| ==> RestlessInput(inputs[i])
    ensures forall k :: 0 <= k < |inputs[1..]| ==> RestlessInput(inputs[1..][k])
  {
    forall k | 0 <= k < |inputs[1..]| ensures RestlessInput(inputs[1..][k]) {
      assert inputs[1..][k] == inputs[k + 1];
    }
  }

  /** The steering target has length 6 or is zero. */
  lemma SteerTargetSpeed(c: Controls, f: Heading, sqrt: real -> real)
    requires IsSqrt(sqrt) && IsUnit(f)
    ensures var t := Steer(c, f, sqrt).target;
            NormSq(t) == SPEED * SPEED || t == Heading(0.0, 0.0)
  {
    SteerSpeed(c, f, sqrt);
  }

  /** The steering target of the source's own `move`, built with its left-pointing
      `right`, also has length 6 or is zero. */
  lemma SteerAsWrittenTargetSpeed(c: Controls, f: Heading, sqrt: real -> real)
    requires IsSqrt(sqrt)
    ensures var t := SteerAlong(MoveAsWritten(c, f), sqrt).target;
            NormSq(t) == SPEED * SPEED || t == Heading(0.0, 0.0)
  {
    SteerAlongSpeed(MoveAsWritten(c, f), sqrt);
  }

  /** From rest at the origin, the proposed point of one frame is within reach of
      the first tree as the source places it (at the origin). */
  lemma RestProposalCollidesAsWritten(p: Player, s: Steering, dt: real, w: World, sqrt: real -> real)
    requires IsSqrt(sqrt)
    requires NormSq(s.target) == SPEED * SPEED || s.target == Heading(0.0, 0.0)
    requires |w.trees| > 0 && w.trees[0].collisionRadius == TREE_RADIUS
    requires p.pos.x == 0.0 && p.pos.z == 0.0 && p.vel.x == 0.0 && p.vel.z == 0.0
    requires 0.0 <= dt <= MAX_DT
    ensures CollidesAsWritten(w, Propose(p, s, dt, sqrt).pos)
  {
    var q := Propose(p, s, dt, sqrt);
    ProposalFromRest(p, s, dt, sqrt);
    assert Overlaps(q.pos, AtGroupOrigin(w.trees[0]), TREE_RADIUS);
  }
}

=== FILE: real_math.dfy ===
/** Real-number helpers standing in for the JavaScript `Math` functions and the
    three.js `MathUtils` helpers the simulation uses. Everything is over `real`:
    IEEE-754 rounding is not modelled. */
module RealMath {

  /** `sqrt` behaves as the non-negative square root on non-negative arguments.
      `Math.sqrt` (inside three.js `length`, `normalize` and `setLength`) is passed
      to the model as a function parameter constrained by this predicate. The
      fact is released only through `SqrtAt`, so that unrelated proofs are not
      burdened with it. */
  ghost predicate IsSqrt(sqrt: real -> real) {
    forall x: real {:trigger NonNegative(x)} :: NonNegative(x) ==> 0.0 <= sqrt(x) && sqrt(x) * sqrt(x) == x
  }

  predicate NonNegative(x: real) {
    0.0 <= x
  }

  lemma SqrtAt(sqrt: real -> real, x: real)
    requires IsSqrt(sqrt) && 0.0 <= x
    ensures 0.0 <= sqrt(x) && sqrt(x) * sqrt(x) == x
  {
    assert NonNegative(x);
  }

  /** `Math.min` on two numbers. */
  function Min(a: real, b: real): (m: real)
    ensures m <= a && m <= b
    ensures m == a || m == b
  {
    if a <= b then a else b
  }

  /** `Math.max` on two numbers. */
  function Max(a: real, b: real): (m: real)
    ensures a <= m && b <= m
    ensures m == a || m == b
  {
    if a >= b then a else b
  }

  function Abs(a: real): real {
    if a < 0.0 then -a else a
  }

  /** `THREE.MathUtils.lerp(x, y, t)`, written the way three.js computes it. Its
      contract gives the equivalent "move a fraction t of the way" reading. */
  function Lerp(x: real, y: real, t: real): (r: real)
    ensures r == x + t * (y - x)
    ensures r - y == (1.0 - t) * (x - y)
  {
    (1.0 - t) * x + t * y
  }

  /** The root of a non-negative number exceeds a non-negative bound exactly when
      the number exceeds the bound's square. */
  lemma RootExceedsIff(x: real, root: real, bound: real)
    requires 0.0 <= root && root * root == x
    requires 0.0 <= bound
    ensures root > bound <==> x > bound * bound
  {
    var mixed := root * bound;
    if root > bound {
      assert root * root > mixed;
      assert mixed >= bound * bound;
    } else {
      assert root * root <= mixed;
      assert mixed <= bound * bound;
    }
  }

  /** Multiplying a plane vector of length `len` by `k` gives a vector whose
      length is `k * len`: the step behind three.js `setLength` and
      `normalize().multiplyScalar(..)`. */
  lemma ScaledNorm(x: real, z: real, k: real, len: real, target: real)
    requires len * len == x * x + z * z
    requires k * len == target
    ensures (x * k) * (x * k) + (z * k) * (z * k) == target * target
  {
    assert (x * k) * (x * k) + (z * k) * (z * k) == (k * k) * (x * x + z * z);
    assert (k * k) * (len * len) == (k * len) * (k * len);
  }
}

=== FILE: wrappers.dfy ===
/** The optional-value datatype used where the source may find nothing (an unmapped key). */
module Wrappers {

  datatype Option<+T> = None | Some(value: T)
}
